=== FILE: README.md ===
# FluentCRM Conditional Status — a Dafny model of its decision logic

The plugin sits between FluentForms and FluentCRM. When a form is submitted
through a FluentCRM feed, it reads one form field, judges the value true or
false, and sets the new contact's subscriber status to the status the feed
configures for that outcome (for example `pending`, which starts double
opt-in, when an opt-in checkbox is ticked, and `transactional` otherwise). It
also adds the settings for this to the feed's settings screen.

This project models the pure logic of the two core classes:

- `php_values.dfy` (`PhpValues`): PHP values, `empty()`, `isset()` and the
  `isset(...) ? ... : ''` pattern, and how a scalar becomes an array key.
- `php_strings.dfy` (`PhpStrings`): `strtolower` (ASCII) and `trim` with its
  default character list, characterised independently of their definitions.
- `truthiness.dfy` (`Truthiness`): `evaluate_field_value`, the handler's
  truthiness test, and a characterisation of the strings it reads as false.
- `feeds.dfy` (`Feeds`): the feed keys of the conditional-status section and
  the test that switches it on.
- `field_lookup.dfy` (`FieldLookup`): `get_field_value`, with the submission
  details table and `json_decode` as functions passed in.
- `submission_handler.dfy` (`SubmissionHandler`): the decision rule shared by
  `modify_subscriber_data` and `modify_subscriber_status`, and both filters,
  with `save()` and `do_action(...)` returned as events.
- `options.dfy` (`OrderedOptions`): ordered PHP string arrays as the
  drop-downs use them; `$a[$k] = $v` overwrites in place or appends.
- `feed_settings.dfy` (`FeedSettings`): `find_setting_index`, the splice in
  `add_feed_settings`, `add_feed_defaults`, `get_form_fields` and
  `get_subscriber_statuses`.
- `settings_meet_handler.dfy` (`SettingsMeetHandler`): what a feed configured
  through the settings screen makes the handler do.

The enable test is strict: only the string `'true'` switches the section on
(`Feeds.EnabledOnlyByTrueString`). A boolean `true` stored by the checkbox
would leave the section off. Whether FluentForms stores the string or the
boolean is host behaviour outside this model.

## Model

| member | source | states |
|---|---|---|
| `PhpValues.EmptyValues` | includes/class-submission-handler.php:126 | PHP `empty()`, which gates the enable flag, the field name and the chosen status, holds of exactly null, false, 0, "", "0", the empty array and falsy objects |
| `PhpValues.SettingOrEmpty` | includes/class-submission-handler.php:63 | an `isset`-guarded read yields the stored value when it is set and non-null, else an empty value; never null |
| `PhpValues.KeyOf` | includes/class-submission-handler.php:150-169 | the string a field name is looked up under, as an array offset, a property name and a `%s` query argument: a string names itself; null and false name ""; true names "1"; an integer names its decimal spelling, which starts with '-' exactly when it is negative and has no leading zero (only 0 itself starts with '0'); arrays and objects name no key |
| `PhpValues.DecimalRoundTrip` | includes/class-submission-handler.php:150-169 | reading an integer's decimal spelling back as digits gives the integer |
| `PhpValues.NumberKeysDiffer` | includes/class-submission-handler.php:150-169 | two different integer field names are looked up under two different keys |
| `PhpStrings.Lower` | includes/class-submission-handler.php:199 | `strtolower` keeps the length and maps every position independently: capitals A-Z become their small letters and every other character stays |
| `PhpStrings.LowerKeepsTrimmable` | includes/class-submission-handler.php:199 | lower-casing neither adds nor removes characters that `trim` strips |
| `PhpStrings.TrimStart` | includes/class-submission-handler.php:199 | the result is a suffix of the input, everything dropped is trimmable, and the result does not start with a trimmable character |
| `PhpStrings.TrimEnd` | includes/class-submission-handler.php:199 | the result is a prefix of the input, everything dropped is trimmable, and the result does not end with a trimmable character |
| `PhpStrings.Trim` | includes/class-submission-handler.php:199 | the result is a slice of the input with only trimmable characters on either side, and neither of its ends is trimmable |
| `PhpStrings.TrimOfPadded` | includes/class-submission-handler.php:199 | `trim` recovers any core with solid ends from any trimmable padding on both sides |
| `Truthiness.Evaluate` | includes/class-submission-handler.php:186-223 | null and "" are false; for every non-string (arrays, booleans, numbers, objects) the result is exactly PHP truthiness, so an array is true iff non-empty |
| `Truthiness.StringFalseIff` | includes/class-submission-handler.php:198-209 | a string is false iff it is one of false, no, 0, off, unchecked or nothing, in any letter case, surrounded by trimmable characters; every other string is true |
| `Truthiness.FalseStringSpellsFalse` | includes/class-submission-handler.php:198-205 | a string judged false is a padded false word |
| `Truthiness.PaddedFalseWordIsFalse` | includes/class-submission-handler.php:198-205 | a padded false word in any case is judged false |
| `Truthiness.EmptyStringsAreFalse` | includes/class-submission-handler.php:188-209 | on strings the rule is stricter than PHP truthiness: "" and "0" are false, and a true string is never PHP-empty |
| `Truthiness.PaddedNoIsFalse` | includes/class-submission-handler.php:198-205 | " No " is false |
| `Truthiness.BlankIsFalse` | includes/class-submission-handler.php:198-205 | every string made only of trim's characters (including the empty string) is false |
| `Truthiness.MixedCaseIsFalse` | includes/class-submission-handler.php:199-205 | "UnChecked" is false |
| `Truthiness.PlainWordIsTrue` | includes/class-submission-handler.php:198-209 | a lower-case string with solid ends that is not a false word is true |
| `Truthiness.NumericZeroStringIsTrue` | includes/class-submission-handler.php:198-209 | "0.0", numerically zero but not a false word, is true |
| `Truthiness.ArrayExamples` | includes/class-submission-handler.php:193-195 | an array holding only "" is true; the empty array is false |
| `Feeds.EnabledOnlyByTrueString` | includes/class-submission-handler.php:58 | the section is on iff the enable setting is the string 'true'; boolean true, 1 and "TRUE" leave it off |
| `FieldLookup.Response` | includes/class-submission-handler.php:148-149 | an entry without a set response has no response array; an array response is used as it is; a string response is JSON-decoded and used when it decodes to an array; any other response gives none |
| `FieldLookup.GetFieldValue` | includes/class-submission-handler.php:146-178 | the value comes from the response if set there, else the entry property, else the details table, and it is null exactly when none of the three has one |
| `FieldLookup.EarlierSourceWins` | includes/class-submission-handler.php:148-158 | when the response or the entry object has the field, the details table cannot change the result |
| `SubmissionHandler.Decide` | includes/class-submission-handler.php:58-74 | the rule is inactive iff the section is off or the field name is empty; otherwise it reads that field, judges it, and selects status_if_true or status_if_false accordingly |
| `SubmissionHandler.ModifySubscriberData` | includes/class-submission-handler.php:56-95 | a disabled section or empty field name leaves the data and fires nothing; otherwise status becomes the selected setting when that is non-empty, and the data is returned untouched when it is empty; no key but status ever changes; exactly one event fires iff a status is written, and it carries the raw field-name setting, the field's value, the truthiness verdict, the written status, and the entry's `id` and `form_id` (0 when unset) |
| `SubmissionHandler.ModifySubscriberStatus` | includes/class-submission-handler.php:105-137 | the contact changes only when the selected status is non-empty and differs; then it is saved exactly once, first, and the opt-in event fires exactly once when the new status is pending and not at all otherwise (one or two events in all); no other contact field changes |
| `SubmissionHandler.HandlersAgree` | includes/class-submission-handler.php:72-78 | both filters leave a contact with the same status |
| `SubmissionHandler.StatusFilterSettles` | includes/class-submission-handler.php:126-134 | a second run of the status filter on its own result saves nothing and fires nothing |
| `SubmissionHandler.DataFilterIdempotent` | includes/class-submission-handler.php:77-79 | a second run of the data filter leaves the data as the first run did |
| `SubmissionHandler.ZeroFieldNameIsAbsent` | includes/class-submission-handler.php:63-66 | a field name of "0" counts as no field: nothing changes |
| `OrderedOptions.Get` | includes/class-feed-settings.php:201 | a key reads as present iff it is among the keys, and then the label stored with it |
| `OrderedOptions.Put` | includes/class-feed-settings.php:201 | assignment keeps every existing key in its place, changes no other key's label, and appends a new key at the end |
| `OrderedOptions.PutKeys` | includes/class-feed-settings.php:201 | after assignment the keys are the old keys plus the assigned one |
| `OrderedOptions.PutThenGet` | includes/class-feed-settings.php:201 | after assignment the key reads as the assigned label and every other key reads as before |
| `OrderedOptions.PutKeepsKeysUnique` | includes/class-feed-settings.php:201 | assignment keeps keys distinct |
| `FeedSettings.FieldOption` | includes/class-feed-settings.php:183-202 | a field contributes an entry exactly when its name is truthy and its element is one of the nine allowed types; the entry sits under the field's own name and reads as the label (or the name when there is no label) followed by the type in parentheses |
| `FeedSettings.AddFieldThenGet` | includes/class-feed-settings.php:200-202 | one accepted field makes its name read as its entry and leaves every other key as it was |
| `FeedSettings.CollectOptions` | includes/class-feed-settings.php:182-203 | the loop never removes entries or moves their keys (each earlier key stays at its position) and never touches the placeholder entry |
| `FeedSettings.CollectedKeys` | includes/class-feed-settings.php:182-203 | the loop adds exactly the names of fields with a truthy name and an allowed element, and keeps keys distinct |
| `FeedSettings.LastFieldWins` | includes/class-feed-settings.php:182-203 | for a duplicated name the last such field's entry is the one shown |
| `FeedSettings.UnofferedKeyUntouched` | includes/class-feed-settings.php:178-203 | a key no field offers keeps its earlier label, so the placeholder survives |
| `FeedSettings.GetFormFields` | includes/class-feed-settings.php:164-206 | a missing form or one without fields gives no options; otherwise the placeholder comes first, keys are distinct, and they are the placeholder plus the accepted field names |
| `FeedSettings.FormFieldEntries` | includes/class-feed-settings.php:178-203 | the drop-down of a form with fields shows the placeholder under the empty key and, under each accepted name, the label and element of the last field with that name |
| `FeedSettings.SubscriberStatuses` | includes/class-feed-settings.php:213-222 | the status options are exactly subscribed, pending, transactional, unsubscribed, bounced and complained, each once |
| `FeedSettings.FindFrom` | includes/class-feed-settings.php:231-238 | the search from a position finds the first matching setting at or after it, or reports that none matches |
| `FeedSettings.FindSettingIndex` | includes/class-feed-settings.php:231-238 | the result is the position of the first setting whose key is identical to the target, or none when no setting has it |
| `FeedSettings.ConditionalSettings` | includes/class-feed-settings.php:67-133 | five settings keyed enable_conditional_status, conditional_status_field, conditional_status_info, status_if_true, status_if_false in that order; the checkbox itself is always shown and all the others depend on it; the third is the info block; the field select offers the form's fields and both status selects the six statuses |
| `FeedSettings.AddFeedSettings` | includes/class-feed-settings.php:59-140 | without a list_id setting the list is unchanged; otherwise it grows by five, the part up to list_id and the part after it are kept, and the five keys sit right after list_id |
| `FeedSettings.RemovingSectionRestores` | includes/class-feed-settings.php:136 | removing the five inserted settings gives back the original list, so the host's settings keep their order |
| `FeedSettings.SecondRunAddsSecondCopy` | includes/class-feed-settings.php:64-136 | list_id stays at its position, so running the filter twice inserts ten settings |
| `FeedSettings.AddFeedDefaults` | includes/class-feed-settings.php:149-156 | the four section keys get false, '', 'pending' and 'transactional'; every other key keeps its value and no key is lost |
| `FeedSettings.DefaultsIdempotent` | includes/class-feed-settings.php:149-156 | applying the defaults twice is applying them once |
| `SettingsMeetHandler.DefaultFeedIsInactive` | includes/class-feed-settings.php:149-156 | a feed holding the defaults makes both filters leave the contact alone |
| `SettingsMeetHandler.DefaultStatusesAreOffered` | includes/class-feed-settings.php:152-153 | both default statuses are options of the status drop-downs |
| `SettingsMeetHandler.WrittenStatusIsKnown` | includes/class-feed-settings.php:109-131 | when both status settings come from the drop-downs, any status the data filter writes is a FluentCRM status |

## Left out

- Hook registration (`add_filter`, `add_action`), the singletons and the whole bootstrap file `fluentcrm-conditional-status.php` (dependency checks, admin notice, text domain): runtime glue with no decision logic.
- `enqueue_admin_assets`: inline CSS only.
- Translation: `__()` is taken as the identity, so labels are the English strings.
- The markup of the `html_info` setting: `FeedSettings.HtmlInfo` carries no text.
- The database: the forms-table lookup becomes an `Option<Form>` argument and the submission-details query becomes `Env.entryDetail`.
- `json_decode`: the form definition is modelled already decoded, and the entry response is decoded by `Env.decodeJson`.
- `$subscriber->save()` and `do_action(...)` happen as returned `Event`s, in order.
- Floats: numbers are integers, so `(float)$value !== 0.0` is `n != 0`; NaN and other IEEE cases are not modelled.
- PHP array order inside `PhpValue.Arr`: only presence of keys is needed there; ordered arrays are modelled where order shows (`OrderedOptions`, settings lists).
- PHP key coercion beyond canonical strings: array keys are stored in their canonical string form, which agrees with PHP's lookup.
- SubmissionHandler.Decide: a field-name setting that is a non-empty array or object is treated as no field at all; PHP 7.4 only warns on such a name and goes on looking it up under its string conversion.
- FieldLookup.Response: a response that is, or decodes to, anything but an array is treated as holding no fields. For a string, PHP would read a character at an integer-like field name. For an object, `isset($response[$field_name])` throws "Cannot use object of type … as array", while the model falls through to the entry property.
- FeedSettings.FieldDef: field names and labels that decode to non-strings are not modelled; a non-string element never matches the allow-list and is modelled as absent.
- FeedSettings.FindSettingIndex: settings lists are sequences, so the index is a position; PHP returns the array key, which is the same for the list arrays the host passes.
- FeedSettings.ConditionalSettings: the info setting, which has no tips in PHP, carries empty tips.
- PhpStrings.Lower: ASCII letters only, as `strtolower` behaves under the default C locale and always from PHP 8.2; a site that changes the locale on older PHP is not modelled.

=== FILE: feed_settings.dfy ===
/**
  The settings-screen side of the plugin: the five settings it splices into a
  FluentCRM feed after the list selector, the defaults it gives them, the
  drop-down of form fields and the drop-down of subscriber statuses.
 */
module FeedSettings {
  import opened Wrappers
  import opened PhpValues
  import opened Feeds
  import opened OrderedOptions

  /** The form elements offered in the "Field to Check" drop-down. */
  const AllowedTypes: set<string> := {
    "input_checkbox", "input_radio", "select", "input_text", "input_email",
    "input_number", "textarea", "gdpr-agreement", "terms_and_condition"
  }

  /** The label of the drop-down's first, empty option. */
  const Placeholder := "-- Select Field --"

  /** A field of the decoded form definition. Each attribute is None when it
      is missing or null: `element`, `attributes.name` and `settings.label` (the caption). */
  datatype FieldDef = FieldDef(element: Option<string>, name: Option<string>, caption: Option<string>)

  /** The `fields` entry of the decoded form definition. `NoFields` covers a
      form whose definition does not decode, decodes to something falsy or
      holds no `fields`; `NotIterable` a `fields` that is a scalar. */
  datatype FieldsEntry = NoFields | NotIterable | FieldArray(items: seq<FieldDef>)

  /** A row of the forms table, reduced to its decoded field definitions. */
  datatype Form = Form(fields: FieldsEntry)

  /** The drop-down entry a field contributes, if it has a name PHP finds
      truthy and an allowed element. The label falls back to the name. */
  function FieldOption(f: FieldDef): (o: Option<(string, string)>)
    ensures o.Some? <==> f.name.Some? && !IsEmpty(Str(f.name.value))
                         && f.element.Some? && f.element.value in AllowedTypes
    ensures o.Some? ==> o.value.0 != "" && f.name == Some(o.value.0)
    ensures o.Some? ==> o.value.1 == f.caption.GetOr(f.name.value) + " (" + f.element.value + ")"
  {
    var fieldType := f.element.GetOr("");
    var name := f.name.GetOr("");
    var caption := f.caption.GetOr(name);
    if !IsEmpty(Str(name)) && fieldType in AllowedTypes then
      Some((name, caption + " (" + fieldType + ")"))
    else
      None
  }

  /** Field `f` puts an entry with key `k` into the drop-down. */
  predicate Offers(f: FieldDef, k: string) {
    FieldOption(f).Some? && FieldOption(f).value.0 == k
  }

  /** The names the fields put into the drop-down. */
  function OfferedNames(items: seq<FieldDef>): set<string> {
    set i | 0 <= i < |items| && FieldOption(items[i]).Some? :: FieldOption(items[i]).value.0
  }

  /** One pass of the loop: an accepted field assigns its entry. */
  function AddField(o: Options, f: FieldDef): Options {
    match FieldOption(f)
    case None => o
    case Some(entry) => Put(o, entry.0, entry.1)
  }

  /** After one pass, the field's name reads as its entry and other keys as before. */
  lemma AddFieldThenGet(o: Options, f: FieldDef, k: string)
    ensures Get(AddField(o, f), k) == if Offers(f, k) then Some(FieldOption(f).value.1) else Get(o, k)
  {
    match FieldOption(f)
    case None =>
    case Some(entry) => PutThenGet(o, entry.0, entry.1, k);
  }

  /** The loop over the fields. */
  function CollectOptions(acc: Options, items: seq<FieldDef>): (r: Options)
    ensures |r| >= |acc|
    ensures forall i :: 0 <= i < |acc| ==> r[i].0 == acc[i].0
    ensures forall i :: 0 <= i < |acc| && acc[i].0 == "" ==> r[i] == acc[i]
    decreases |items|
  {
    if |items| == 0 then acc
    else AddField(CollectOptions(acc, items[..|items| - 1]), items[|items| - 1])
  }

  /** The name a single field offers, as a set of at most one element. */
  function NameOffered(f: FieldDef): set<string> {
    if FieldOption(f).Some? then {FieldOption(f).value.0} else {}
  }

  lemma OfferedNamesOfSnoc(items: seq<FieldDef>)
    requires |items| > 0
    ensures OfferedNames(items) == OfferedNames(items[..|items| - 1]) + NameOffered(items[|items| - 1])
  {
    var n := |items| - 1;
    var init := items[..n];
    forall x | x in OfferedNames(items) ensures x in OfferedNames(init) + NameOffered(items[n]) {
      var i :| 0 <= i < |items| && FieldOption(items[i]).Some? && FieldOption(items[i]).value.0 == x;
      if i < n { assert init[i] == items[i]; }
    }
    forall x | x in OfferedNames(init) ensures x in OfferedNames(items) {
      var i :| 0 <= i < |init| && FieldOption(init[i]).Some? && FieldOption(init[i]).value.0 == x;
      assert items[i] == init[i];
    }
  }

  /** One pass of the loop adds the field's name to the keys and keeps them distinct. */
  lemma AddFieldKeys(o: Options, f: FieldDef)
    ensures Keys(AddField(o, f)) == Keys(o) + NameOffered(f)
    ensures UniqueKeys(o) ==> UniqueKeys(AddField(o, f))
  {
    match FieldOption(f)
    case None =>
    case Some(entry) =>
      PutKeys(o, entry.0, entry.1);
      if UniqueKeys(o) {
        PutKeepsKeysUnique(o, entry.0, entry.1);
      }
  }

  /** The keys after the loop are the keys before it and the offered names. */
  lemma {:induction false} CollectedKeys(acc: Options, items: seq<FieldDef>)
    ensures Keys(CollectOptions(acc, items)) == Keys(acc) + OfferedNames(items)
    ensures UniqueKeys(acc) ==> UniqueKeys(CollectOptions(acc, items))
    decreases |items|
  {
    if |items| > 0 {
      var n := |items| - 1;
      var init := items[..n];
      CollectedKeys(acc, init);
      OfferedNamesOfSnoc(items);
      var before := CollectOptions(acc, init);
      assert CollectOptions(acc, items) == AddField(before, items[n]);
      AddFieldKeys(before, items[n]);
    }
  }

  /** A later field with the same name overwrites an earlier one: the entry
      for `k` is the one the last field offering `k` contributes. */
  lemma {:induction false} LastFieldWins(acc: Options, items: seq<FieldDef>, i: int, k: string)
    requires 0 <= i < |items| && Offers(items[i], k)
    requires forall j :: i < j < |items| ==> !Offers(items[j], k)
    ensures Get(CollectOptions(acc, items), k) == Some(FieldOption(items[i]).value.1)
    decreases |items|
  {
    var n := |items| - 1;
    var init := items[..n];
    var before := CollectOptions(acc, init);
    var last := items[n];
    assert CollectOptions(acc, items) == AddField(before, last);
    AddFieldThenGet(before, last, k);
    if i < n {
      assert !Offers(last, k);
      assert init[i] == items[i];
      forall j | i < j < |init| ensures !Offers(init[j], k) {
        assert init[j] == items[j];
      }
      LastFieldWins(acc, init, i, k);
      assert Get(before, k) == Some(FieldOption(items[i]).value.1);
    } else {
      assert last == items[i];
    }
  }

  /** A key no field offers reads as it did before the loop. */
  lemma {:induction false} UnofferedKeyUntouched(acc: Options, items: seq<FieldDef>, k: string)
    requires forall j :: 0 <= j < |items| ==> !Offers(items[j], k)
    ensures Get(CollectOptions(acc, items), k) == Get(acc, k)
    decreases |items|
  {
    if |items| > 0 {
      var n := |items| - 1;
      var init := items[..n];
      forall j | 0 <= j < |init| ensures !Offers(init[j], k) {
        assert init[j] == items[j];
      }
      UnofferedKeyUntouched(acc, init, k);
      AddFieldThenGet(CollectOptions(acc, init), items[n], k);
    }
  }

  /** The "Field to Check" drop-down of a form: nothing for a missing form or
      one without fields, else the placeholder followed by the accepted
      fields. */
  function GetFormFields(form: Option<Form>): (r: Options)
    ensures form.None? || form.value.fields.NoFields? ==> r == []
    ensures form.Some? && form.value.fields.NotIterable? ==> r == [("", Placeholder)]
    ensures form.Some? && form.value.fields.FieldArray? ==>
              |r| > 0 && r[0] == ("", Placeholder)
              && UniqueKeys(r)
              && Keys(r) == {""} + OfferedNames(form.value.fields.items)
  {
    match form
    case None => []
    case Some(f) =>
      match f.fields
      case NoFields => []
      case NotIterable => [("", Placeholder)]
      case FieldArray(items) =>
        var start := [("", Placeholder)];
        assert Keys(start) == {""} by { assert start[0].0 == ""; }
        CollectedKeys(start, items);
        CollectOptions(start, items)
  }

  /** What the drop-down of a form with fields shows: the placeholder under
      the empty key, and under each name the entry of the last field
      offering it. */
  lemma FormFieldEntries(items: seq<FieldDef>, i: int, k: string)
    requires 0 <= i < |items| && Offers(items[i], k)
    requires forall j :: i < j < |items| ==> !Offers(items[j], k)
    ensures var r := GetFormFields(Some(Form(FieldArray(items))));
            && Get(r, "") == Some(Placeholder)
            && Get(r, k) == Some(FieldOption(items[i]).value.1)
  {
    var start := [("", Placeholder)];
    UnofferedKeyUntouched(start, items, "");
    LastFieldWins(start, items, i, k);
  }

  /** The status names FluentCRM knows. */
  const StatusNames: set<string> :=
    {"subscribed", "pending", "transactional", "unsubscribed", "bounced", "complained"}

  /** The options of the two status drop-downs, in display order. */
  function SubscriberStatuses(): (r: Options)
    ensures Keys(r) == StatusNames
    ensures UniqueKeys(r)
  {
    var r := [
      ("subscribed", "Subscribed"),
      ("pending", "Pending (Double Opt-In)"),
      ("transactional", "Transactional"),
      ("unsubscribed", "Unsubscribed"),
      ("bounced", "Bounced"),
      ("complained", "Complained")
    ];
    assert r[0].0 == "subscribed" && r[1].0 == "pending" && r[2].0 == "transactional";
    assert r[3].0 == "unsubscribed" && r[4].0 == "bounced" && r[5].0 == "complained";
    r
  }

  /** How a setting is drawn. Settings the host defines are opaque here. */
  datatype Component =
    | HostDefined(name: string)
    | CheckboxSingle(checkboxLabel: string)
    | SelectBox(options: Options)
    | HtmlInfo

  /** One entry of a feed's settings list. `key` is Null when the entry has
      none; `shownWhenEnabled` is the dependency on the section's checkbox. */
  datatype Setting = Setting(key: PhpValue, caption: string, tips: string, component: Component,
                             shownWhenEnabled: bool)

  /** The setting's key is set and identical to `key`; an unset key (Null) never matches. */
  predicate HasKey(s: Setting, key: string) {
    s.key == Str(key)
  }

  /** The search from position `start` on. */
  function FindFrom(settings: seq<Setting>, key: string, start: nat): (r: Option<nat>)
    requires start <= |settings|
    ensures r.Some? ==> start <= r.value < |settings| && HasKey(settings[r.value], key)
    ensures r.Some? ==> forall j :: start <= j < r.value ==> !HasKey(settings[j], key)
    ensures r.None? ==> forall j :: start <= j < |settings| ==> !HasKey(settings[j], key)
    decreases |settings| - start
  {
    if start == |settings| then None
    else if HasKey(settings[start], key) then Some(start)
    else FindFrom(settings, key, start + 1)
  }

  /** The position of the first setting with the given key, or None (PHP's
      `false`) when there is none. */
  function FindSettingIndex(settings: seq<Setting>, key: string): (r: Option<nat>)
    ensures r.Some? ==> r.value < |settings| && HasKey(settings[r.value], key)
    ensures r.Some? ==> forall j :: 0 <= j < r.value ==> !HasKey(settings[j], key)
    ensures r.None? ==> forall j :: 0 <= j < |settings| ==> !HasKey(settings[j], key)
  {
    FindFrom(settings, key, 0)
  }

  /** The keys of the spliced-in settings, in order. */
  const InsertedKeys: seq<string> := [EnableKey, FieldKey, InfoKey, TrueStatusKey, FalseStatusKey]

  /** The captions and help texts the section shows. */
  const EnableCaption := "Enable Conditional Status"
  const EnableTips := "Set subscriber status based on form field values"
  const EnableCheckbox := "Enable conditional subscriber status mapping"
  const FieldCaption := "Field to Check"
  const FieldTips := "Select the form field to determine subscriber status"
  const TrueCaption := "Status if TRUE/Checked/Has Value"
  const TrueTips := "Status to set when checkbox is checked, radio/select has a value, or text field is not empty"
  const FalseCaption := "Status if FALSE/Unchecked/No Value"
  const FalseTips := "Status to set when checkbox is unchecked, radio/select is empty, or text field is empty"

  /** The five settings of the conditional-status section. */
  function ConditionalSettings(formFields: Options): (r: seq<Setting>)
    ensures |r| == |InsertedKeys|
    ensures forall n :: 0 <= n < |r| ==> r[n].key == Str(InsertedKeys[n])
    ensures !r[0].shownWhenEnabled && r[0].component.CheckboxSingle?
    ensures forall n :: 1 <= n < |r| ==> r[n].shownWhenEnabled
    ensures r[1].component == SelectBox(formFields)
    ensures r[2].component == HtmlInfo
    ensures r[3].component == SelectBox(SubscriberStatuses())
    ensures r[4].component == SelectBox(SubscriberStatuses())
  {
    [
      Setting(Str(EnableKey), EnableCaption, EnableTips, CheckboxSingle(EnableCheckbox), false),
      Setting(Str(FieldKey), FieldCaption, FieldTips, SelectBox(formFields), true),
      Setting(Str(InfoKey), "", "", HtmlInfo, true),
      Setting(Str(TrueStatusKey), TrueCaption, TrueTips, SelectBox(SubscriberStatuses()), true),
      Setting(Str(FalseStatusKey), FalseCaption, FalseTips, SelectBox(SubscriberStatuses()), true)
    ]
  }

  const ListKey := "list_id"

  /** The filter on a feed's settings list: splice the section in right after
      the list selector, or leave the list alone when there is none. */
  function AddFeedSettings(settings: seq<Setting>, form: Option<Form>): (r: seq<Setting>)
    ensures FindSettingIndex(settings, ListKey).None? ==> r == settings
    ensures FindSettingIndex(settings, ListKey).Some? ==>
              var i := FindSettingIndex(settings, ListKey).value;
              && |r| == |settings| + |InsertedKeys|
              && r[..i + 1] == settings[..i + 1]
              && r[i + 1 + |InsertedKeys|..] == settings[i + 1..]
              && (forall n :: 0 <= n < |InsertedKeys| ==> r[i + 1 + n].key == Str(InsertedKeys[n]))
              && r[i + 2].component == SelectBox(GetFormFields(form))
  {
    match FindSettingIndex(settings, ListKey)
    case None => settings
    case Some(i) =>
      var block := ConditionalSettings(GetFormFields(form));
      var r := settings[..i + 1] + block + settings[i + 1..];
      assert r[..i + 1] == settings[..i + 1] && r[i + 1 + |block|..] == settings[i + 1..]
             && r[i + 1..i + 1 + |block|] == block by {
        SpliceParts(settings[..i + 1], block, settings[i + 1..]);
      }
      r
  }

  /** The three parts of a concatenation can be sliced back out of it. */
  lemma SpliceParts<T>(a: seq<T>, b: seq<T>, c: seq<T>)
    ensures (a + b + c)[..|a|] == a
    ensures (a + b + c)[|a|..|a| + |b|] == b
    ensures (a + b + c)[|a| + |b|..] == c
  {
    var r := a + b + c;
    assert r[..|a|] == a;
    assert r[|a|..|a| + |b|] == b;
    assert r[|a| + |b|..] == c;
  }

  /** Taking the five inserted settings back out restores the list: the host's
      settings keep their order. */
  lemma RemovingSectionRestores(settings: seq<Setting>, form: Option<Form>)
    requires FindSettingIndex(settings, ListKey).Some?
    ensures var i := FindSettingIndex(settings, ListKey).value;
            var r := AddFeedSettings(settings, form);
            r[..i + 1] + r[i + 1 + |InsertedKeys|..] == settings
  {
    var i := FindSettingIndex(settings, ListKey).value;
    var r := AddFeedSettings(settings, form);
    assert r[..i + 1] == settings[..i + 1];
    assert r[i + 1 + |InsertedKeys|..] == settings[i + 1..];
    assert settings[..i + 1] + settings[i + 1..] == settings;
  }

  /** The list selector stays where it was, so a second run of the filter
      splices a second copy of the section in at the same place. */
  lemma SecondRunAddsSecondCopy(settings: seq<Setting>, form: Option<Form>)
    requires FindSettingIndex(settings, ListKey).Some?
    ensures var r := AddFeedSettings(settings, form);
            && FindSettingIndex(r, ListKey) == FindSettingIndex(settings, ListKey)
            && |AddFeedSettings(r, form)| == |settings| + 2 * |InsertedKeys|
  {
    var i := FindSettingIndex(settings, ListKey).value;
    var r := AddFeedSettings(settings, form);
    assert r[..i + 1] == settings[..i + 1];
    forall j | 0 <= j <= i ensures r[j] == settings[j] {
      assert r[..i + 1][j] == settings[..i + 1][j];
    }
    assert HasKey(r[i], ListKey);
    assert FindSettingIndex(r, ListKey) == Some(i);
  }

  /** The keys `add_feed_defaults` fills in. */
  const DefaultKeys: set<string> := {EnableKey, FieldKey, TrueStatusKey, FalseStatusKey}

  /** The filter on a feed's default values: the section starts off, with no
      field chosen, 'pending' when true and 'transactional' when false. */
  function AddFeedDefaults(defaults: map<string, PhpValue>): (r: map<string, PhpValue>)
    ensures r.Keys == defaults.Keys + DefaultKeys
    ensures forall k :: k in defaults && k !in DefaultKeys ==> r[k] == defaults[k]
    ensures r[EnableKey] == Bool(false) && r[FieldKey] == Str("")
    ensures r[TrueStatusKey] == Str(Pending) && r[FalseStatusKey] == Str("transactional")
  {
    defaults[EnableKey := Bool(false)][FieldKey := Str("")]
            [TrueStatusKey := Str(Pending)][FalseStatusKey := Str("transactional")]
  }

  /** Applying the defaults twice is applying them once. */
  lemma DefaultsIdempotent(defaults: map<string, PhpValue>)
    ensures AddFeedDefaults(AddFeedDefaults(defaults)) == AddFeedDefaults(defaults)
  {
  }
}

=== FILE: feeds.dfy ===
/**
  A FluentCRM feed's settings as this plugin reads them: the keys of the
  conditional-status section and the test that switches the section on.
 */
module Feeds {
  import opened PhpValues

  /** A feed's settings array. */
  type Feed = map<string, PhpValue>

  const EnableKey := "enable_conditional_status"
  const FieldKey := "conditional_status_field"
  const InfoKey := "conditional_status_info"
  const TrueStatusKey := "status_if_true"
  const FalseStatusKey := "status_if_false"

  /** The status that starts FluentCRM's double opt-in. */
  const Pending := "pending"

  /** The section is on only when `enable_conditional_status` is set and
      identical to the string 'true' (which is never `empty()`). */
  predicate IsEnabled(feed: Feed) {
    IsSet(feed, EnableKey) && feed[EnableKey] == Str("true")
  }

  /** Only the string 'true' switches the section on: the boolean `true`,
      the number 1 and "TRUE" all leave it off. */
  lemma EnabledOnlyByTrueString(feed: Feed)
    ensures IsEnabled(feed) <==> EnableKey in feed && feed[EnableKey] == Str("true")
    ensures EnableKey in feed && feed[EnableKey] in {Bool(true), Num(1), Str("TRUE")} ==> !IsEnabled(feed)
  {
  }

  /** `isset($feed['conditional_status_field']) ? ... : ''` */
  function FieldSetting(feed: Feed): PhpValue {
    SettingOrEmpty(feed, FieldKey)
  }
}

=== FILE: field_lookup.dfy ===
/**
  Where the handler finds the value a form field was submitted with: the
  entry's decoded response first, then a property of the entry object, then
  the submission-details table, else null.
 */
module FieldLookup {
  import opened Wrappers
  import opened PhpValues

  /** A form entry object, as the map of its properties. `response` holds the
      submitted data (a JSON string or an already decoded array) and `id` the
      submission id. */
  datatype Entry = Entry(props: map<string, PhpValue>)

  /** What the lookup consults outside the entry: `json_decode($s, true)`, and
      the `field_value` the submission-details table holds for a submission id
      and field name (None when there is no row or the value is NULL). */
  datatype Env = Env(
    decodeJson: string -> PhpValue,
    entryDetail: (PhpValue, string) -> Option<string>)

  /** The entry's response as an array, when it is set and is (or decodes to)
      an array. */
  function Response(entry: Entry, env: Env): (resp: Option<map<string, PhpValue>>)
    ensures !IsSet(entry.props, "response") ==> resp.None?
    ensures IsSet(entry.props, "response") && entry.props["response"].Arr?
            ==> resp == Some(entry.props["response"].items)
    ensures IsSet(entry.props, "response") && entry.props["response"].Str?
            ==> var decoded := env.decodeJson(entry.props["response"].s);
                resp == if decoded.Arr? then Some(decoded.items) else None
    ensures (IsSet(entry.props, "response") && !entry.props["response"].Arr?
             && !entry.props["response"].Str?) ==> resp.None?
  {
    if !IsSet(entry.props, "response") then None
    else
      var raw := entry.props["response"];
      var decoded := if raw.Str? then env.decodeJson(raw.s) else raw;
      if decoded.Arr? then Some(decoded.items) else None
  }

  /** The response holds a non-null value for `name`. */
  predicate InResponse(entry: Entry, env: Env, name: string) {
    Response(entry, env).Some? && IsSet(Response(entry, env).value, name)
  }

  /** The entry object has a non-null property `name`. */
  predicate OnEntry(entry: Entry, name: string) {
    IsSet(entry.props, name)
  }

  /** The details table's value for `name`, asked only when the entry has an id. */
  function FromDetails(entry: Entry, env: Env, name: string): Option<string> {
    if IsSet(entry.props, "id") then env.entryDetail(entry.props["id"], name) else None
  }

  /** The field's value, from the first of the three sources that has one. */
  function GetFieldValue(entry: Entry, name: string, env: Env): (v: PhpValue)
    ensures InResponse(entry, env, name) ==> v == Response(entry, env).value[name]
    ensures !InResponse(entry, env, name) && OnEntry(entry, name) ==> v == entry.props[name]
    ensures !InResponse(entry, env, name) && !OnEntry(entry, name) && FromDetails(entry, env, name).Some?
            ==> v == Str(FromDetails(entry, env, name).value)
    ensures v == Null <==>
            !InResponse(entry, env, name) && !OnEntry(entry, name) && FromDetails(entry, env, name).None?
  {
    if InResponse(entry, env, name) then Response(entry, env).value[name]
    else if OnEntry(entry, name) then entry.props[name]
    else match FromDetails(entry, env, name)
      case Some(detail) => Str(detail)
      case None => Null
  }

  /** A source consulted earlier wins whatever the later ones hold: with the
      same entry and decoder, the details table matters only when neither the
      response nor the entry object has the field. */
  lemma EarlierSourceWins(entry: Entry, name: string, env1: Env, env2: Env)
    requires env1.decodeJson == env2.decodeJson
    requires InResponse(entry, env1, name) || OnEntry(entry, name)
    ensures GetFieldValue(entry, name, env1) == GetFieldValue(entry, name, env2)
  {
  }
}

=== FILE: options.dfy ===
/**
  An ordered PHP array from string keys to string labels, the shape of the
  option lists the settings screen shows in its drop-downs. Assigning to a
  key that exists replaces its label where it stands; a new key goes last.
 */
module OrderedOptions {
  import opened Wrappers

  type Options = seq<(string, string)>

  function Keys(o: Options): set<string> {
    set i | 0 <= i < |o| :: o[i].0
  }

  /** No key appears twice, as in any PHP array. */
  predicate UniqueKeys(o: Options) {
    forall i, j :: 0 <= i < j < |o| ==> o[i].0 != o[j].0
  }

  lemma KeysOfCons(e: (string, string), o: Options)
    ensures Keys([e] + o) == {e.0} + Keys(o)
  {
    var c := [e] + o;
    forall x | x in Keys(c) ensures x in {e.0} + Keys(o) {
      var i :| 0 <= i < |c| && c[i].0 == x;
      if i > 0 { assert o[i - 1].0 == x; }
    }
    forall x | x in Keys(o) ensures x in Keys(c) {
      var i :| 0 <= i < |o| && o[i].0 == x;
      assert c[i + 1].0 == x;
    }
    assert c[0].0 == e.0;
  }

  /** `$o[$k] ?? null`: the label of the first entry with key `k`. */
  function Get(o: Options, k: string): (r: Option<string>)
    ensures r.Some? <==> k in Keys(o)
    ensures r.Some? ==> exists i :: 0 <= i < |o| && o[i] == (k, r.value)
  {
    if |o| == 0 then None
    else if o[0].0 == k then Some(o[0].1)
    else
      var r := Get(o[1..], k);
      assert o == [o[0]] + o[1..];
      KeysOfCons(o[0], o[1..]);
      assert r.Some? ==> exists i :: 0 <= i < |o| && o[i] == (k, r.value) by {
        if r.Some? {
          var i :| 0 <= i < |o[1..]| && o[1..][i] == (k, r.value);
          assert o[i + 1] == (k, r.value);
        }
      }
      r
  }

  /** `$o[$k] = $v`. */
  function Put(o: Options, k: string, v: string): (r: Options)
    ensures |r| == if k in Keys(o) then |o| else |o| + 1
    ensures forall i :: 0 <= i < |o| ==> r[i].0 == o[i].0
    ensures forall i :: 0 <= i < |o| && o[i].0 != k ==> r[i] == o[i]
    ensures k !in Keys(o) ==> r == o + [(k, v)]
  {
    if |o| == 0 then [(k, v)]
    else
      assert o == [o[0]] + o[1..];
      KeysOfCons(o[0], o[1..]);
      if o[0].0 == k then [(k, v)] + o[1..]
      else [o[0]] + Put(o[1..], k, v)
  }

  lemma KeysOfAppend(o: Options, e: (string, string))
    ensures Keys(o + [e]) == Keys(o) + {e.0}
  {
    var c := o + [e];
    forall x | x in Keys(c) ensures x in Keys(o) + {e.0} {
      var i :| 0 <= i < |c| && c[i].0 == x;
      if i < |o| { assert o[i].0 == x; }
    }
    assert c[|o|].0 == e.0;
    forall x | x in Keys(o) ensures x in Keys(c) {
      var i :| 0 <= i < |o| && o[i].0 == x;
      assert c[i].0 == x;
    }
  }

  /** After `$o[$k] = $v` the keys are the old ones plus `k`. */
  lemma PutKeys(o: Options, k: string, v: string)
    ensures Keys(Put(o, k, v)) == Keys(o) + {k}
  {
    var r := Put(o, k, v);
    if k in Keys(o) {
      forall x | x in Keys(r) ensures x in Keys(o) {
        var i :| 0 <= i < |r| && r[i].0 == x;
        assert o[i].0 == x;
      }
      forall x | x in Keys(o) ensures x in Keys(r) {
        var i :| 0 <= i < |o| && o[i].0 == x;
        assert r[i].0 == x;
      }
    } else {
      KeysOfAppend(o, (k, v));
    }
  }

  /** Reading `k` after `$o[$k] = $v` gives `v`; every other key reads as before. */
  lemma {:induction false} PutThenGet(o: Options, k: string, v: string, k': string)
    ensures Get(Put(o, k, v), k') == if k' == k then Some(v) else Get(o, k')
    decreases |o|
  {
    var r := Put(o, k, v);
    if |o| == 0 {
    } else if o[0].0 == k {
      assert r[1..] == o[1..];
    } else {
      assert r[1..] == Put(o[1..], k, v);
      PutThenGet(o[1..], k, v, k');
    }
  }

  /** `$o[$k] = $v` keeps the keys distinct. */
  lemma PutKeepsKeysUnique(o: Options, k: string, v: string)
    requires UniqueKeys(o)
    ensures UniqueKeys(Put(o, k, v))
  {
  }
}

=== FILE: php_strings.dfy ===
/**
  The two PHP string built-ins the truthiness rule applies: `strtolower`
  (ASCII letters only, as PHP 8.2 and later do it) and `trim` with its default
  character list (space, tab, newline, carriage return, NUL, vertical tab).
 */
module PhpStrings {

  /** A character `trim` strips by default. */
  predicate IsTrimmable(c: char) {
    c == ' ' || c == '\t' || c == '\n' || c == '\r' || c == '\0' || c == '\U{000B}'
  }

  /** Every character of `w` is stripped by `trim`. */
  predicate AllTrimmable(w: string) {
    forall i :: 0 <= i < |w| ==> IsTrimmable(w[i])
  }

  /** `w` starts and ends with a character `trim` keeps (or is empty). */
  predicate HasSolidEnds(w: string) {
    |w| > 0 ==> !IsTrimmable(w[0]) && !IsTrimmable(w[|w| - 1])
  }

  function LowerChar(c: char): (d: char)
    ensures 'A' <= c <= 'Z' ==> 'a' <= d <= 'z' && d as int - c as int == 32
    ensures !('A' <= c <= 'Z') ==> d == c
    ensures IsTrimmable(d) <==> IsTrimmable(c)
  {
    if 'A' <= c <= 'Z' then (c as int - 'A' as int + 'a' as int) as char else c
  }

  /** `strtolower`: maps each ASCII capital to its small letter, position by position. */
  function Lower(s: string): (r: string)
    ensures |r| == |s|
    ensures forall i :: 0 <= i < |s| ==> r[i] == LowerChar(s[i])
  {
    seq(|s|, i requires 0 <= i < |s| => LowerChar(s[i]))
  }

  /** Lowering commutes with taking a slice. */
  lemma LowerSlice(s: string, i: int, j: int)
    requires 0 <= i <= j <= |s|
    ensures Lower(s[i..j]) == Lower(s)[i..j]
  {
  }

  /** Lowering neither creates nor removes characters `trim` strips. */
  lemma LowerKeepsTrimmable(s: string)
    ensures AllTrimmable(Lower(s)) <==> AllTrimmable(s)
  {
  }

  /** `ltrim`: drops the leading run of trimmable characters. */
  function TrimStart(s: string): (r: string)
    ensures |r| <= |s| && r == s[|s| - |r|..]
    ensures AllTrimmable(s[..|s| - |r|])
    ensures |r| > 0 ==> !IsTrimmable(r[0])
    decreases |s|
  {
    if |s| > 0 && IsTrimmable(s[0]) then
      var r := TrimStart(s[1..]);
      assert s[..|s| - |r|] == [s[0]] + s[1..][..|s| - 1 - |r|];
      r
    else
      s
  }

  /** `rtrim`: drops the trailing run of trimmable characters. */
  function TrimEnd(s: string): (r: string)
    ensures |r| <= |s| && r == s[..|r|]
    ensures AllTrimmable(s[|r|..])
    ensures |r| > 0 ==> !IsTrimmable(r[|r| - 1])
    decreases |s|
  {
    if |s| > 0 && IsTrimmable(s[|s| - 1]) then
      var r := TrimEnd(s[..|s| - 1]);
      assert s[|r|..] == s[..|s| - 1][|r|..] + [s[|s| - 1]];
      r
    else
      s
  }

  /** `r` is the slice of `s` at `i` with only trimmable characters on either side. */
  predicate IsCoreAt(s: string, i: int, r: string) {
    && 0 <= i <= |s| - |r|
    && r == s[i..i + |r|]
    && AllTrimmable(s[..i])
    && AllTrimmable(s[i + |r|..])
  }

  /** `trim`: the middle of `s` left once both trimmable runs are dropped. */
  function Trim(s: string): (r: string)
    ensures HasSolidEnds(r)
    ensures exists i :: IsCoreAt(s, i, r)
  {
    var t := TrimStart(s);
    var r := TrimEnd(t);
    var i := |s| - |t|;
    assert s[i + |r|..] == t[|r|..];
    assert IsCoreAt(s, i, r);
    r
  }

  /** Trimming a string with no trimmable lead leaves it alone after padding is dropped. */
  lemma {:induction false} TrimStartOfPadded(w: string, x: string)
    requires AllTrimmable(w)
    requires |x| > 0 ==> !IsTrimmable(x[0])
    ensures TrimStart(w + x) == x
    decreases |w|
  {
    if |w| == 0 {
      assert w + x == x;
      if |x| == 0 {
        assert TrimStart(x) == x;
      }
    } else {
      assert (w + x)[1..] == w[1..] + x;
      TrimStartOfPadded(w[1..], x);
    }
  }

  lemma {:induction false} TrimEndOfPadded(x: string, w: string)
    requires AllTrimmable(w)
    requires |x| > 0 ==> !IsTrimmable(x[|x| - 1])
    ensures TrimEnd(x + w) == x
    decreases |w|
  {
    if |w| == 0 {
      assert x + w == x;
    } else {
      var n := |w| - 1;
      assert (x + w)[..|x + w| - 1] == x + w[..n];
      TrimEndOfPadded(x, w[..n]);
    }
  }

  /** `trim` recovers the core of any string padded with trimmable characters
      on both sides, provided the core itself has solid ends. */
  lemma TrimOfPadded(w1: string, core: string, w2: string)
    requires AllTrimmable(w1) && AllTrimmable(w2)
    requires HasSolidEnds(core)
    ensures Trim(w1 + core + w2) == core
  {
    assert w1 + core + w2 == w1 + (core + w2);
    if |core| > 0 {
      TrimStartOfPadded(w1, core + w2);
      TrimEndOfPadded(core, w2);
    } else {
      assert core + w2 == w2;
      assert AllTrimmable(w1 + w2);
    }
  }
}

=== FILE: php_values.dfy ===
/**
  The dynamically typed values the plugin receives from its hosts (feed
  settings, form entries, subscriber data), and the PHP built-ins that
  classify them: `empty()`, `isset()` and the conversion of a value to an
  array key or property name.
 */
module PhpValues {
  import opened Wrappers

  /** A PHP value. Arrays are keyed by the canonical string form of their
      keys (PHP stores the key "5" as the integer 5, and both spell the same
      key), so a lookup in `items` agrees with PHP's. `Other` stands for
      objects and resources, of which only their truthiness matters here. */
  datatype PhpValue =
    | Null
    | Bool(b: bool)
    | Num(n: int)
    | Str(s: string)
    | Arr(items: map<string, PhpValue>)
    | Other(truthy: bool)

  /** PHP `empty($v)` for a value that exists. */
  predicate IsEmpty(v: PhpValue) {
    match v
    case Null => true
    case Bool(b) => !b
    case Num(n) => n == 0
    case Str(s) => s == "" || s == "0"
    case Arr(items) => |items| == 0
    case Other(t) => !t
  }

  /** `empty()` holds of exactly six values besides falsy objects. */
  lemma EmptyValues(v: PhpValue)
    ensures IsEmpty(v) <==>
      v in {Null, Bool(false), Num(0), Str(""), Str("0"), Arr(map[]), Other(false)}
  {
  }

  /** PHP `isset($m[$k])`: the key is present and its value is not null. */
  predicate IsSet(m: map<string, PhpValue>, k: string) {
    k in m && m[k] != Null
  }

  /** `isset($m[$k]) ? $m[$k] : ''`, the plugin's way of reading a setting. */
  function SettingOrEmpty(m: map<string, PhpValue>, k: string): (v: PhpValue)
    ensures v != Null
    ensures IsSet(m, k) ==> v == m[k]
    ensures !IsSet(m, k) ==> IsEmpty(v)
  {
    if IsSet(m, k) then m[k] else Str("")
  }

  /** The string PHP converts a scalar to, which is the property name it
      names and, for every value but `false` (the array key "0"), the array
      key too; `false` is empty and so never reaches a lookup. Arrays and
      objects name no key here (None). */
  function KeyOf(v: PhpValue): (k: Option<string>)
    ensures v.Str? ==> k == Some(v.s)
    ensures k.None? <==> v.Arr? || v.Other?
    ensures v.Null? || v == Bool(false) ==> k == Some("")
    ensures v == Bool(true) ==> k == Some("1")
    ensures v.Num? ==> k.Some? && |k.value| > 0 && (k.value[0] == '-' <==> v.n < 0)
    ensures v.Num? && v.n >= 0 ==> (k.value[0] == '0' <==> v.n == 0)
    ensures v.Num? && v.n < 0 ==> |k.value| > 1 && '1' <= k.value[1] <= '9'
  {
    match v
    case Null => Some("")
    case Bool(b) => Some(if b then "1" else "")
    case Num(n) => Some(IntToDecimal(n))
    case Str(s) => Some(s)
    case Arr(_) => None
    case Other(_) => None
  }

  function DigitChar(d: nat): (c: char)
    requires d < 10
    ensures '0' <= c <= '9'
    ensures DigitValue(c) == d
  {
    "0123456789"[d]
  }

  /** Decimal spelling of a natural number, without leading zeros. */
  function NatToDecimal(n: nat): (s: string)
    ensures |s| > 0
    ensures n < 10 <==> |s| == 1
    ensures forall i :: 0 <= i < |s| ==> '0' <= s[i] <= '9'
    ensures s[0] == '0' <==> n == 0
  {
    if n < 10 then [DigitChar(n)] else NatToDecimal(n / 10) + [DigitChar(n % 10)]
  }

  /** Decimal spelling of an integer, as PHP converts an int to a string. */
  function IntToDecimal(n: int): (s: string)
    ensures |s| > 0
    ensures (s[0] == '-') <==> n < 0
    ensures n >= 0 ==> (s[0] == '0' <==> n == 0)
    ensures n < 0 ==> |s| > 1 && '1' <= s[1] <= '9'
  {
    if n < 0 then "-" + NatToDecimal(-n) else NatToDecimal(n)
  }

  /** The value of a decimal digit. */
  function DigitValue(c: char): nat
    requires '0' <= c <= '9'
  {
    c as int - '0' as int
  }

  /** Reads a string of decimal digits back as a number. */
  function DecimalValue(s: string): nat
    requires forall i :: 0 <= i < |s| ==> '0' <= s[i] <= '9'
  {
    if |s| == 0 then 0 else DecimalValue(s[..|s| - 1]) * 10 + DigitValue(s[|s| - 1])
  }

  /** Reading the decimal spelling back gives the number. */
  lemma {:induction false} DecimalRoundTrip(n: nat)
    ensures DecimalValue(NatToDecimal(n)) == n
  {
    var s := NatToDecimal(n);
    if n >= 10 {
      assert s[..|s| - 1] == NatToDecimal(n / 10);
      DecimalRoundTrip(n / 10);
    }
  }

  /** Only one natural number has a given digit string. */
  lemma DigitsDetermine(a: nat, b: nat)
    requires NatToDecimal(a) == NatToDecimal(b)
    ensures a == b
  {
    DecimalRoundTrip(a);
    DecimalRoundTrip(b);
  }

  /** Dropping the sign of a negative number's spelling leaves its magnitude's digits. */
  lemma NegativeSpelling(n: int)
    requires n < 0
    ensures IntToDecimal(n)[1..] == NatToDecimal(-n)
  {
    var t := NatToDecimal(-n);
    assert IntToDecimal(n) == "-" + t;
    assert ("-" + t)[1..] == t;
  }

  /** Only one integer has a given decimal spelling. */
  lemma DecimalSpellingDetermines(a: int, b: int)
    requires IntToDecimal(a) == IntToDecimal(b)
    ensures a == b
  {
    if a >= 0 && b >= 0 {
      DigitsDetermine(a, b);
    } else if a < 0 && b < 0 {
      NegativeSpelling(a);
      NegativeSpelling(b);
      DigitsDetermine(-a, -b);
    }
  }

  /** Different numbers convert to different strings, so they name different
      array keys and different properties. */
  lemma NumberKeysDiffer(a: int, b: int)
    requires a != b
    ensures KeyOf(Num(a)) != KeyOf(Num(b))
  {
    if IntToDecimal(a) == IntToDecimal(b) {
      DecimalSpellingDetermines(a, b);
    }
  }
}

=== FILE: settings_meet_handler.dfy ===
/**
  How the settings screen and the submission handler fit together: what a
  feed configured through the screen makes the handler do.
 */
module SettingsMeetHandler {
  import opened PhpValues
  import opened Feeds
  import opened OrderedOptions
  import opened FeedSettings
  import opened FieldLookup
  import opened SubmissionHandler

  /** A feed holding the plugin's defaults leaves every contact alone: the
      section starts switched off. */
  lemma DefaultFeedIsInactive(defaults: Feed, data: map<string, PhpValue>, sub: Subscriber,
                              entry: Entry, env: Env)
    ensures var feed := AddFeedDefaults(defaults);
            && Decide(feed, entry, env) == Inactive
            && ModifySubscriberData(data, feed, entry, env) == DataOutcome(data, [])
            && ModifySubscriberStatus(sub, feed, entry, env) == StatusOutcome(sub, [])
  {
  }

  /** Both default statuses are options of the status drop-downs. */
  lemma DefaultStatusesAreOffered(defaults: Feed)
    ensures var feed := AddFeedDefaults(defaults);
            && feed[TrueStatusKey].Str? && feed[TrueStatusKey].s in Keys(SubscriberStatuses())
            && feed[FalseStatusKey].Str? && feed[FalseStatusKey].s in Keys(SubscriberStatuses())
  {
  }

  /** A status setting as the status drop-down leaves it: unset, or a status name. */
  predicate FromStatusDropDown(feed: Feed, key: string) {
    !IsSet(feed, key) || (feed[key].Str? && feed[key].s in StatusNames)
  }

  /** When both status settings come from the drop-downs, whatever status the
      data filter writes is one FluentCRM knows. */
  lemma WrittenStatusIsKnown(data: map<string, PhpValue>, feed: Feed, entry: Entry, env: Env)
    requires FromStatusDropDown(feed, TrueStatusKey) && FromStatusDropDown(feed, FalseStatusKey)
    ensures var r := ModifySubscriberData(data, feed, entry, env);
            |r.events| > 0 ==> r.data[StatusKey].Str? && r.data[StatusKey].s in StatusNames
  {
  }
}

=== FILE: submission_handler.dfy ===
/**
  The two filters that set a FluentCRM subscriber's status from a form
  field: one rewrites the subscriber data before the contact is created, the
  other corrects the status of a contact already saved. Both share one
  decision rule.
 */
module SubmissionHandler {
  import opened Wrappers
  import opened PhpValues
  import opened Truthiness
  import opened Feeds
  import opened FieldLookup

  /** The key of the subscriber data the rule writes. */
  const StatusKey := "status"

  /** The outcome of the shared decision rule: either the section does not
      apply, or it names the field read, its value, how that value was judged
      and the status setting this selects (possibly empty). */
  datatype Decision =
    | Inactive
    | Decided(fieldName: string, fieldValue: PhpValue, truthy: bool, status: PhpValue)

  /** The rule: when the section is on and names a field, read the field,
      judge it, and pick `status_if_true` or `status_if_false` accordingly. */
  function Decide(feed: Feed, entry: Entry, env: Env): (d: Decision)
    ensures d.Inactive? <==>
            !IsEnabled(feed) || IsEmpty(FieldSetting(feed)) || KeyOf(FieldSetting(feed)).None?
    ensures d.Decided? ==>
            && KeyOf(FieldSetting(feed)) == Some(d.fieldName)
            && d.fieldValue == GetFieldValue(entry, d.fieldName, env)
            && d.truthy == Evaluate(d.fieldValue)
            && d.status == SettingOrEmpty(feed, if d.truthy then TrueStatusKey else FalseStatusKey)
  {
    if !IsEnabled(feed) then Inactive
    else
      var field := FieldSetting(feed);
      if IsEmpty(field) then Inactive
      else match KeyOf(field)
        case None => Inactive
        case Some(name) =>
          var value := GetFieldValue(entry, name, env);
          var truthy := Evaluate(value);
          var statusKey := if truthy then TrueStatusKey else FalseStatusKey;
          Decided(name, value, truthy, SettingOrEmpty(feed, statusKey))
  }

  /** The rule writes a status: it decided, and the selected setting is not empty. */
  predicate Writes(d: Decision) {
    d.Decided? && !IsEmpty(d.status)
  }

  /** A contact as far as the status filter touches it. */
  datatype Subscriber = Subscriber(status: PhpValue, fields: map<string, PhpValue>)

  /** The side effects of the filters, in order. */
  datatype Event =
    | StatusApplied(fieldName: PhpValue, fieldValue: PhpValue, isTruthy: bool, status: PhpValue,
                    entryId: PhpValue, formId: PhpValue)
    | Saved(subscriber: Subscriber)
    | AddedToLists(subscriber: Subscriber)

  datatype DataOutcome = DataOutcome(data: map<string, PhpValue>, events: seq<Event>)

  datatype StatusOutcome = StatusOutcome(subscriber: Subscriber, events: seq<Event>)

  /** `isset($entry->prop) ? $entry->prop : 0` */
  function PropOrZero(entry: Entry, prop: string): PhpValue {
    if IsSet(entry.props, prop) then entry.props[prop] else Num(0)
  }

  /** The filter on the subscriber data sent to FluentCRM. */
  function ModifySubscriberData(data: map<string, PhpValue>, feed: Feed, entry: Entry, env: Env)
    : (r: DataOutcome)
    ensures !IsEnabled(feed) || IsEmpty(FieldSetting(feed)) ==> r == DataOutcome(data, [])
    ensures IsEnabled(feed) && !IsEmpty(FieldSetting(feed)) && FieldSetting(feed).Str? ==>
              var value := GetFieldValue(entry, FieldSetting(feed).s, env);
              var chosen := SettingOrEmpty(feed, if Evaluate(value) then TrueStatusKey else FalseStatusKey);
              && (IsEmpty(chosen) ==> r == DataOutcome(data, []))
              && (!IsEmpty(chosen) ==> r.data == data[StatusKey := chosen] && |r.events| == 1)
    ensures forall k :: k != StatusKey ==> (k in r.data <==> k in data)
    ensures forall k :: k != StatusKey && k in data ==> r.data[k] == data[k]
    ensures |r.events| > 0 <==> Writes(Decide(feed, entry, env))
    ensures Writes(Decide(feed, entry, env)) ==> r.data == data[StatusKey := Decide(feed, entry, env).status]
    ensures !Writes(Decide(feed, entry, env)) ==> r == DataOutcome(data, [])
    ensures |r.events| > 0 ==>
              && |r.events| == 1 && r.events[0].StatusApplied?
              && r.events[0].fieldName == FieldSetting(feed)
              && r.events[0].status == r.data[StatusKey]
    ensures |r.events| > 0 ==>
              var d := Decide(feed, entry, env);
              r.events == [StatusApplied(FieldSetting(feed), d.fieldValue, d.truthy, d.status,
                                         PropOrZero(entry, "id"), PropOrZero(entry, "form_id"))]
  {
    var d := Decide(feed, entry, env);
    if Writes(d) then
      var applied := StatusApplied(FieldSetting(feed), d.fieldValue, d.truthy, d.status,
                                   PropOrZero(entry, "id"), PropOrZero(entry, "form_id"));
      DataOutcome(data[StatusKey := d.status], [applied])
    else
      DataOutcome(data, [])
  }

  /** The filter on a contact FluentCRM has already added. */
  function ModifySubscriberStatus(sub: Subscriber, feed: Feed, entry: Entry, env: Env)
    : (r: StatusOutcome)
    ensures !IsEnabled(feed) || IsEmpty(FieldSetting(feed)) ==> r == StatusOutcome(sub, [])
    ensures r.subscriber.fields == sub.fields
    ensures r.subscriber.status != sub.status <==> |r.events| > 0
    ensures r.subscriber.status != sub.status ==>
              && Writes(Decide(feed, entry, env))
              && r.subscriber.status == Decide(feed, entry, env).status
              && r.events[0] == Saved(r.subscriber)
              && (AddedToLists(r.subscriber) in r.events <==> r.subscriber.status == Str(Pending))
              && |r.events| == if r.subscriber.status == Str(Pending) then 2 else 1
    ensures Writes(Decide(feed, entry, env)) ==> r.subscriber.status == Decide(feed, entry, env).status
  {
    var d := Decide(feed, entry, env);
    if Writes(d) && sub.status != d.status then
      var updated := sub.(status := d.status);
      var optIn := if d.status == Str(Pending) then [AddedToLists(updated)] else [];
      StatusOutcome(updated, [Saved(updated)] + optIn)
    else
      StatusOutcome(sub, [])
  }

  /** The two filters agree: the status the second leaves a contact with is
      the status the first writes into data holding the contact's status. */
  lemma HandlersAgree(sub: Subscriber, data: map<string, PhpValue>, feed: Feed, entry: Entry, env: Env)
    requires StatusKey in data && data[StatusKey] == sub.status
    ensures ModifySubscriberData(data, feed, entry, env).data[StatusKey]
            == ModifySubscriberStatus(sub, feed, entry, env).subscriber.status
  {
  }

  /** Running the status filter again on its own result saves nothing and
      fires nothing. */
  lemma StatusFilterSettles(sub: Subscriber, feed: Feed, entry: Entry, env: Env)
    ensures var once := ModifySubscriberStatus(sub, feed, entry, env);
            ModifySubscriberStatus(once.subscriber, feed, entry, env) == StatusOutcome(once.subscriber, [])
  {
  }

  /** Running the data filter again leaves the data as the first run left it. */
  lemma DataFilterIdempotent(data: map<string, PhpValue>, feed: Feed, entry: Entry, env: Env)
    ensures var once := ModifySubscriberData(data, feed, entry, env).data;
            ModifySubscriberData(once, feed, entry, env).data == once
  {
  }

  /** A field name of "0" counts as no field at all: nothing changes. */
  lemma ZeroFieldNameIsAbsent(data: map<string, PhpValue>, feed: Feed, entry: Entry, env: Env)
    requires FieldKey in feed && feed[FieldKey] == Str("0")
    ensures ModifySubscriberData(data, feed, entry, env) == DataOutcome(data, [])
  {
  }
}

=== FILE: truthiness.dfy ===
/**
  The handler's notion of a "truthy" form value: a checkbox, radio button,
  select or text input counts as true unless it is missing, empty, or one of
  a handful of spellings of "no".
 */
module Truthiness {
  import opened PhpValues
  import opened PhpStrings

  /** The spellings read as false once a string is lowered and trimmed. */
  const FalseWords: set<string> := {"false", "no", "0", "off", "unchecked", ""}

  /** The handler's truthiness test for a submitted value. Away from strings it
      agrees with PHP's own truthiness (`! empty()`); on strings it is stricter,
      reading the spellings of "no" as false as well. */
  function Evaluate(v: PhpValue): (truthy: bool)
    ensures v == Null || v == Str("") ==> !truthy
    ensures !v.Str? ==> (truthy <==> !IsEmpty(v))
  {
    if v == Null || v == Str("") then false
    else
      match v
      case Arr(items) => |items| > 0
      case Str(s) =>
        var t := Trim(Lower(s));
        if t in FalseWords then false else t != ""
      case Bool(b) => b
      case Num(n) => n != 0
      case Null => false  // handled by the first test
      case Other(_) => !IsEmpty(v)
  }

  /** `s` is a spelling of false: one of the false words in any mix of upper
      and lower case, with any trimmable padding around it. */
  ghost predicate SpellsFalse(s: string) {
    exists i, j :: 0 <= i <= j <= |s| && AllTrimmable(s[..i]) && AllTrimmable(s[j..])
                   && Lower(s[i..j]) in FalseWords
  }

  /** No false word starts or ends with a trimmable character. */
  lemma FalseWordsHaveSolidEnds(w: string)
    requires w in FalseWords
    ensures HasSolidEnds(w)
  {
  }

  /** The witnesses of `SpellsFalse`. */
  lemma SpellsFalseAt(s: string, i: int, j: int)
    requires 0 <= i <= j <= |s|
    requires AllTrimmable(s[..i]) && AllTrimmable(s[j..])
    requires Lower(s[i..j]) in FalseWords
    ensures SpellsFalse(s)
  {
  }

  /** A false word found in the lowered string, between trimmable runs,
      is found in the original string too. */
  lemma LoweredCoreSpellsFalse(s: string, i: int, t: string)
    requires IsCoreAt(Lower(s), i, t)
    requires t in FalseWords
    ensures SpellsFalse(s)
  {
    var j := i + |t|;
    LowerSlice(s, i, j);
    LowerSlice(s, 0, i);
    LowerSlice(s, j, |s|);
    assert s[0..i] == s[..i] && s[j..|s|] == s[j..];
    assert Lower(s)[0..i] == Lower(s)[..i] && Lower(s)[j..|s|] == Lower(s)[j..];
    LowerKeepsTrimmable(s[..i]);
    LowerKeepsTrimmable(s[j..]);
    SpellsFalseAt(s, i, j);
  }

  /** A string read as false is a padded false word. */
  lemma FalseStringSpellsFalse(s: string)
    requires !Evaluate(Str(s))
    ensures SpellsFalse(s)
  {
    if s == "" {
      assert Lower(s[0..0]) == "";
      SpellsFalseAt(s, 0, 0);
    } else {
      var t := Trim(Lower(s));
      assert t in FalseWords;
      var i :| IsCoreAt(Lower(s), i, t);
      LoweredCoreSpellsFalse(s, i, t);
    }
  }

  /** A padded false word, in any case, is read as false. */
  lemma PaddedFalseWordIsFalse(s: string, i: int, j: int)
    requires 0 <= i <= j <= |s|
    requires AllTrimmable(s[..i]) && AllTrimmable(s[j..])
    requires Lower(s[i..j]) in FalseWords
    ensures !Evaluate(Str(s))
  {
    var low := Lower(s);
    var core := Lower(s[i..j]);
    LowerSlice(s, i, j);
    LowerSlice(s, 0, i);
    LowerSlice(s, j, |s|);
    LowerKeepsTrimmable(s[..i]);
    LowerKeepsTrimmable(s[j..]);
    assert s[0..i] == s[..i] && s[j..|s|] == s[j..];
    assert low == low[..i] + low[i..j] + low[j..];
    assert low == Lower(s[..i]) + core + Lower(s[j..]);
    FalseWordsHaveSolidEnds(core);
    TrimOfPadded(Lower(s[..i]), core, Lower(s[j..]));
  }

  /** A string is false exactly when it spells false; every other string,
      numeric ones such as "0.0" included, is true. */
  lemma StringFalseIff(s: string)
    ensures !Evaluate(Str(s)) <==> SpellsFalse(s)
  {
    if !Evaluate(Str(s)) {
      FalseStringSpellsFalse(s);
    }
    if SpellsFalse(s) {
      var i, j :| 0 <= i <= j <= |s| && AllTrimmable(s[..i]) && AllTrimmable(s[j..])
                  && Lower(s[i..j]) in FalseWords;
      PaddedFalseWordIsFalse(s, i, j);
    }
  }

  /** The two strings PHP calls empty are read as false too, so the rule is
      stricter than PHP truthiness on strings, never looser. */
  lemma EmptyStringsAreFalse(s: string)
    ensures IsEmpty(Str(s)) ==> !Evaluate(Str(s))
    ensures Evaluate(Str(s)) ==> !IsEmpty(Str(s))
  {
    if s == "0" {
      assert s[..0] == "" && s[1..] == "" && s[0..1] == "0";
      assert Lower("0") == "0";
      PaddedFalseWordIsFalse(s, 0, 1);
    }
  }

  /** A padded, capitalised "no" is false. */
  lemma PaddedNoIsFalse()
    ensures !Evaluate(Str(" No "))
  {
    var s := " No ";
    assert s[..1] == " " && s[3..] == " " && s[1..3] == "No";
    assert Lower("No") == "no";
    PaddedFalseWordIsFalse(s, 1, 3);
  }

  /** A string of trimmable characters alone, the empty one included, is false. */
  lemma BlankIsFalse(s: string)
    requires AllTrimmable(s)
    ensures !Evaluate(Str(s))
  {
    assert s[..|s|] == s;
    assert s[|s|..] == "";
    assert Lower("") == "";
    PaddedFalseWordIsFalse(s, |s|, |s|);
  }

  /** Case does not matter: "UnChecked" is false. */
  lemma MixedCaseIsFalse()
    ensures !Evaluate(Str("UnChecked"))
  {
    var u := "UnChecked";
    assert u[..0] == "" && u[9..] == "" && u[0..9] == u;
    assert Lower(u) == "unchecked";
    PaddedFalseWordIsFalse(u, 0, 9);
  }

  /** A lower-case string with solid ends that is not a false word is true. */
  lemma PlainWordIsTrue(s: string)
    requires HasSolidEnds(s)
    requires Lower(s) == s
    requires s !in FalseWords
    ensures Evaluate(Str(s))
  {
  }

  /** A string that is numerically zero but not literally "0" is true. */
  lemma NumericZeroStringIsTrue()
    ensures Evaluate(Str("0.0"))
  {
  }

  /** Arrays count by emptiness alone, whatever they hold. */
  lemma ArrayExamples()
    ensures Evaluate(Arr(map["0" := Str("")]))
    ensures !Evaluate(Arr(map[]))
  {
  }
}

=== FILE: wrappers.dfy ===
/** An optional value: PHP's `isset(...) ? $x : default` pattern and
    "not found" results are expressed with it. */
module Wrappers {

  datatype Option<+T> = None | Some(value: T) {

    /** The value in Some, or a default when None */
    function GetOr(default: T): T {
      match this
      case Some(v) => v
      case None => default
    }
  }
}
